=== FILE: README.md ===
# Helm Salt formula: decision logic in Dafny

This project models the three thin layers of a Salt formula that drives the
`helm` command-line client:

- the `helm_release` states `present` and `absent`, which ask the `helm`
  execution module whether a release exists and then create, upgrade or
  delete it, summarising the outcome in Salt's
  `{name, changes, result, comment}` return record;
- the `helm_repos` states `managed`, which classifies the report of
  `helm.manage_repos`, and `updated`, which scans the text of
  `helm repo update` for the repositories that did and did not refresh;
- the execution module's `_helm_cmd`, `release_exists` and
  `release_create`, which build `helm` command lines and reduce the result
  of running them to a boolean.

Each layer is modelled against its own contract. The layers do not agree
with each other: the states call `release_exists(name, namespace, **tiller_args)`
and `release_create(name, chart_name, namespace, version, values, **tiller_args)`,
whose module versions take fewer arguments, and `present` treats a truthy
return of `release_create` as an error message, while the module returns
`True` on success. The model therefore never composes the states with the
module: the states' adapter answers are inputs (`ReleaseStates.Answers`,
`RepoStates.ManageResponse`, `RepoStates.UpdateResponse`), and the module's
calls into Salt's `cmd` module are oracle functions passed in.

Modules:

- `PyValues` (`py_values.dfy`): Python/YAML data (`None`, bools, ints,
  strings, lists, string-keyed dicts), Python truthiness and Python `==`.
- `SaltState` (`salt_state.dfy`): the state return record and the rendering
  of name lists in comments.
- `HelmModule` (`helm_module.dfy`): command construction and the success
  predicates of the execution module.
- `ReleaseStates` (`release_states.dfy`): `failure`, which builds the failed
  record, and `present` and `absent`, each returning the record together with
  the trace of adapter calls made.
- `RepoScan` (`repo_scan.dfy`): the fixed-phrase, quoted-name scanner behind
  the two `re.findall` calls of `updated`.
- `RepoStates` (`repo_states.dfy`): `managed` and `updated`, and a model of
  `helm repo update` output used to show that the scan reads it back.

## Model

| member | source | states |
|---|---|---|
| `HelmModule.HelmCmd` | _modules/helm.py:5-12 | the command is `helm` followed by exactly the given arguments in order, with an environment holding only `HELM_HOME=/srv/helm/home` and no stdin |
| `HelmModule.ReleaseExists` | _modules/helm.py:15-17 | the check runs `helm list --short --all <name>` and answers true exactly when the captured stdout equals the name |
| `HelmModule.ExistsOnlyForSoleListing` | _modules/helm.py:15-17 | on a listing output, the check is true exactly when the listing consists of the one release `name`; any second listed release makes it false |
| `HelmModule.ExistsMissesFilteredRelease` | _modules/helm.py:16-17 | with `web` and `web-canary` listed, the check answers false although `web` is listed |
| `HelmModule.ReleaseListed` | _modules/helm.py:15-17 | the corrected check (name is one of the output lines) accepts every single-line name the check as written accepts |
| `HelmModule.ListedIffInListing` | _modules/helm.py:15-17 | the corrected check (name is one of the output lines) is true exactly when the listing contains the name |
| `HelmModule.InstallCommand` | _modules/helm.py:20-28 | the install command reads back as `helm install --name <name> <chart>`, then `--version <v>` exactly when a version is given, then `--values /dev/stdin` exactly when values are not `None`, in that order; stdin is set exactly when values are not `None` and then holds their serialization |
| `HelmModule.ParseInstallInjective` | _modules/helm.py:20-26 | two install command lines that read back as the same request are the same command line |
| `HelmModule.ReleaseCreate` | _modules/helm.py:20-30 | `release_create` is true exactly when the command it runs exits with status 0, where that command is any one reading back as `helm install --name <name> <chart>` with the requested flags, `HELM_HOME=/srv/helm/home` and, when values are not `None`, their serialization on stdin |
| `PyValues.EqReflexive` | _states/helm_release.py:43 | Python `==` on values is reflexive, so identical value sets always compare equal |
| `PyValues.EqSymmetric` | _states/helm_release.py:43 | Python `==` on values does not depend on operand order |
| `PyValues.BoolEqualsOne` | _states/helm_release.py:43 | Python `==` is coarser than structural identity: `{replicas: true}` equals `{replicas: 1}` |
| `ReleaseStates.Failure` | _states/helm_release.py:6-12 | a failure record is unsuccessful, reports no changes and carries the error as its comment |
| `ReleaseStates.Present` | _states/helm_release.py:15-60 | every call names the release and forwards the connection arguments unchanged; create is consulted exactly when the release is missing and upgrade exactly when it exists, whatever the old values; a missing release is never upgraded nor its values read; a create or upgrade error yields `failure(name, err)`; a successful create reports `{name: CREATED}`; a successful upgrade reads the values before and after and reports no changes when they compare equal, otherwise exactly one `values` change |
| `ReleaseStates.PresentStable` | _states/helm_release.py:42-49 | re-applying a release whose values the upgrade leaves untouched succeeds with no changes and the "already exists" comment |
| `ReleaseStates.PresentIgnoresBoolIntChange` | _states/helm_release.py:42-49 | values that only change `true` into `1` are reported as unchanged |
| `ReleaseStates.DefaultsReachAdapter` | _states/helm_release.py:15-70 | called with only the required arguments (defaults at lines 15-17 for `present` and 63-64 for `absent`), both states hand every module call Tiller namespace `kube-system`, no Tiller host and no kubeconfig, and `present` creates or upgrades with no version and `None` values |
| `ReleaseStates.Absent` | _states/helm_release.py:63-86 | a missing release succeeds with no changes and no delete; an existing one is deleted, a delete error yields `failure(name, err)`, success reports `{name: DELETED}`; create, upgrade and value reads never happen |
| `ReleaseStates.ResultIffWriteSucceeded` | _states/helm_release.py:23-86 | both release states succeed exactly when the one write they issued returned no error, and `absent` with nothing to delete always succeeds |
| `RepoStates.PresentNames` | _states/helm_repos.py:52-53 | the desired-state comment lists the repository names of `present`, one per entry, in iteration order |
| `RepoStates.Managed` | _states/helm_repos.py:28-58 | for every report holding the keys the source reads on its path (`added` only when `failed` is falsy, `removed` only when `added` is too), the state succeeds exactly when the module returned a report whose `failed` list is empty; the changes are the whole report exactly when it records a failure, addition or removal, and empty otherwise; a raised `CommandExecutionError` gives a failed state with no changes and the error in the comment |
| `RepoStates.ManagedFailureFirst` | _states/helm_repos.py:41-45 | a report with failures is a failed state with the whole report as changes, even when repositories were also added or removed |
| `RepoScan.QuoteFreeRun` | _states/helm_repos.py:88-91 | the capture `[^"]+` runs over the longest quote-free prefix, which ends at a quote or at the end of the text |
| `RepoScan.MatchAt` | _states/helm_repos.py:88-91 | an anchored match splits the text into phrase, opening quote, a non-empty quote-free name, closing quote and the rest |
| `RepoScan.FindAll` | _states/helm_repos.py:88-91 | every name `re.findall` returns is non-empty and contains no double quote; with `GapsOf`, `FirstMatchFound` and `NoNameIffNoMatch` below, the names are exactly the captures of the leftmost non-overlapping matches |
| `RepoScan.FirstMatchFound` | _states/helm_repos.py:88-91 | the scan misses no match: the first name returned is the capture of the leftmost match, and scanning resumes behind its closing quote |
| `RepoScan.NoNameIffNoMatch` | _states/helm_repos.py:88-91 | `re.findall` returns no name exactly when the pattern matches at no position of the text |
| `RepoScan.GapsOf` | _states/helm_repos.py:88-91 | for any text, the names `re.findall` returns, each put back behind the phrase and opening quote and before a closing quote, interleaved with the skipped stretches, give back the text: every name is a capture of a match, in text order, and no two matches overlap |
| `RepoScan.ScanHit` | _states/helm_repos.py:88-91 | after a match the scan resumes behind the closing quote, so matches are reported in text order and never overlap |
| `RepoScan.SkipForeign` | _states/helm_repos.py:88-91 | text without the phrase's first letter contributes no name |
| `RepoScan.SkipQuoted` | _states/helm_repos.py:88-91 | a quote-free name followed by a quote holds no match of a phrase it does not end with: a match starting inside the name would need the pattern's opening quote to fall on that quote, which makes the name end with the phrase |
| `RepoScan.NoMatchWithOneQuote` | _states/helm_repos.py:88-91 | the pattern never matches at a position of text that holds at most one double quote |
| `RepoScan.UnclosedQuoteNoMatch` | _states/helm_repos.py:88-91 | a match requires a closing quote: text with at most one double quote, such as a phrase whose name runs to the end of the output, yields no names |
| `RepoStates.Updated` | _states/helm_repos.py:75-101 | a raised `CommandExecutionError` gives a failed state with no changes; otherwise the state fails exactly when some "Unable to get an update" name was found, and then the changes hold both the succeeded and the failed lists; without failures the changes are empty and the comment lists the succeeded names |
| `RepoStates.ScanRendered` | _states/helm_repos.py:88-91 | scanning a simplified rendering of `helm repo update` output (one line per repository, without failure details, header or trailer) recovers, in order, exactly the repositories that refreshed and exactly those that did not |
| `RepoStates.UpdatedOnRenderedRun` | _states/helm_repos.py:88-101 | on such output `updated` succeeds exactly when every repository refreshed, and otherwise reports both name lists in output order |

## Left out

- Running commands: `cmd.run_stdout` and `cmd.retcode` are oracle functions (`Command -> string`, `Command -> int`) handed to `HelmModule.ReleaseExists` and `HelmModule.ReleaseCreate`.
- `yaml.serialize` (the stdin of `release_create`) is the `serialize` parameter, and the unified diff of the serialized old and new values in `present` is the `diff` parameter; only the presence of the `values` key and its origin are stated, not the diff text.
- Logging in `release_create`.
- HelmModule.JoinLines: the listing output carries no trailing newline because `cmd.run_stdout` strips trailing whitespace by default; that Salt behaviour is assumed, not modelled, and without it `release_exists` could never be true.
- The execution-module functions the states call but whose code is not part of this model (`manage_repos`, `update_repos`, `release_upgrade`, `get_values`, `release_delete`): their answers are inputs, so repository-set reconciliation, exclusive mode and namespace-change replacement are not modelled.
- Composition of the states with the module: the argument lists and the return convention of `release_exists` and `release_create` differ between the two layers, so calling one from the other is not modelled.
- Exceptions raised by the execution module in `present` and `absent`: these states catch nothing, so any exception of an adapter call, `CommandExecutionError` included, escapes; `Answers` holds only returned values, and the escape is not modelled.
- Exceptions other than `CommandExecutionError` in `managed` and `updated` (for instance a `TypeError` or `KeyError`): they escape these states and are not modelled.
- RepoStates.Managed: requires the report to carry each key the state reads on its path (`failed`; then `added` when `failed` is falsy; then `removed` when `added` is falsy too); a report missing such a key makes the state raise `KeyError`, which is not modelled.
- RepoStates.Managed: the arguments `managed` passes to `manage_repos` (`present`, `absent`, `exclusive`, `helm_home`) are not modelled; `present` only feeds the comment.
- RepoStates.Updated: the `helm_home` argument passed to `update_repos` is not modelled.
- RepoStates.Managed: the desired-state comment renders names with a simplified `repr` that wraps each name in single quotes without Python's escaping or quote selection.
- RepoStates.Updated: the success comment renders the names with the same simplified `repr`.
- RepoStates.PresentNames: `present` is a dict; its Python 2 `iteritems` order is taken as the order of the input sequence.
- PyValues.Eq: floats, tuples, non-string dict keys and other Python types YAML can produce are not part of the value model.
- ReleaseStates.Present: `version` is an optional string and the connection arguments are typed fields; the Python code forwards any object.
- HelmModule.HelmCmd: arguments are strings; Python would accept other objects in the tuple.
- General regular-expression semantics: only the two fixed-phrase, quoted-name patterns are modelled.

## Findings

| source | as written | input that shows it | evidently intended | confidence | as-written member | corrected member |
|---|---|---|---|---|---|---|
| _modules/helm.py:16-17 | the whole stdout of `helm list --short --all <name>` must equal the name | releases `web` and `web-canary` both installed: helm treats the filter `web` as an unanchored regular expression and prints `web\nweb-canary`, so `release_exists('web')` is false | the release counts as existing when its name is one of the listed lines | medium, not executed | `HelmModule.ExistsMissesFilteredRelease` | `HelmModule.ReleaseListed` | _modules/helm.py:15-17 | the corrected check (name is one of the output lines) accepts every single-line name the check as written accepts |
| `HelmModule.ListedIffInListing` |

=== FILE: helm_module.dfy ===
/**
 * The `helm` execution module: it turns a request into a `helm` command line
 * with a fixed `HELM_HOME`, hands it to Salt's `cmd` module, and reduces the
 * answer to a boolean. The `cmd.run_stdout` and `cmd.retcode` calls are
 * oracle functions supplied by the caller; `yaml.serialize` is one too.
 */
module HelmModule {
  import opened PyValues

  /** Home directory of the helm client, fixed at module level. */
  const HelmHome: string := "/srv/helm/home"

  /** The keyword arguments handed to `cmd.run_stdout` / `cmd.retcode`. */
  datatype Command = Command(argv: seq<string>, env: map<string, string>, stdin: Option<string>)

  /** `_helm_cmd(*args)`: `helm` followed by the arguments, with only `HELM_HOME` set. */
  function HelmCmd(args: seq<string>): (c: Command)
    ensures |c.argv| == |args| + 1 && c.argv[0] == "helm" && c.argv[1..] == args
    ensures c.env.Keys == {"HELM_HOME"} && c.env["HELM_HOME"] == "/srv/helm/home"
    ensures c.stdin.None?
  {
    Command(["helm"] + args, map["HELM_HOME" := HelmHome], None)
  }

  // ---------------------------------------------------------------- release_exists

  /** The listing command `release_exists` runs: `helm list --short --all <name>`. */
  function ListCommand(name: string): Command
  {
    HelmCmd(["list", "--short", "--all", name])
  }

  /** `release_exists(name)`: the whole captured stdout must be exactly `name`. */
  function ReleaseExists(name: string, runStdout: Command -> string): (found: bool)
    ensures found <==> runStdout(HelmCmd(["list", "--short", "--all", name])) == name
  {
    runStdout(ListCommand(name)) == name
  }

  /**
   * The captured stdout of `helm list --short`: one release name per line,
   * with no newline after the last, since `cmd.run_stdout` strips trailing
   * whitespace by default.
   */
  function JoinLines(names: seq<string>): string
  {
    if |names| == 0 then ""
    else if |names| == 1 then names[0]
    else names[0] + "\n" + JoinLines(names[1..])
  }

  /**
   * On a listing output, `release_exists` is true exactly when the listing
   * holds the one release `name` and nothing else.
   */
  lemma ExistsOnlyForSoleListing(name: string, listing: seq<string>)
    requires name != "" && '\n' !in name
    ensures ReleaseExists(name, _ => JoinLines(listing)) <==> listing == [name]
  {
    if |listing| >= 2 {
      var out := JoinLines(listing);
      assert out[|listing[0]|] == '\n';
    }
  }

  /**
   * `helm list FILTER` treats FILTER as a regular expression, so a second
   * release whose name contains `name` is printed too; `release_exists`
   * then answers false although `name` is installed: here `web` is listed.
   */
  lemma ExistsMissesFilteredRelease()
    ensures !ReleaseExists("web", _ => JoinLines(["web", "web-canary"]))
  {
    ExistsOnlyForSoleListing("web", ["web", "web-canary"]);
  }

  /** Position of the first occurrence of `c` in `s`. */
  function IndexOf(s: string, c: char): (i: nat)
    requires c in s
    ensures i < |s| && s[i] == c
    ensures forall j :: 0 <= j < i ==> s[j] != c
  {
    if s[0] == c then 0 else IndexOf(s[1..], c) + 1
  }

  /** `s.split('\n')`. */
  function Lines(s: string): (ls: seq<string>)
    ensures |ls| >= 1
    decreases |s|
  {
    if '\n' in s then
      var i := IndexOf(s, '\n');
      [s[..i]] + Lines(s[i + 1..])
    else [s]
  }

  /** Splitting a listing output recovers the listed names. */
  lemma {:induction false} LinesOfJoinLines(names: seq<string>)
    requires |names| >= 1
    requires forall k :: 0 <= k < |names| ==> '\n' !in names[k]
    ensures Lines(JoinLines(names)) == names
    decreases |names|
  {
    if |names| >= 2 {
      var out := JoinLines(names);
      assert out == names[0] + "\n" + JoinLines(names[1..]);
      assert out[|names[0]|] == '\n';
      var i := IndexOf(out, '\n');
      assert i == |names[0]|;
      assert out[..i] == names[0];
      assert out[i + 1..] == JoinLines(names[1..]);
      LinesOfJoinLines(names[1..]);
    }
  }

  /**
   * Corrected existence check: `name` is one of the lines `helm list`
   * printed, whatever else the filter matched.
   */
  function ReleaseListed(name: string, runStdout: Command -> string): (listed: bool)
    ensures '\n' !in name && ReleaseExists(name, runStdout) ==> listed
  {
    name in Lines(runStdout(ListCommand(name)))
  }

  /** The corrected check answers true exactly when the listing holds `name`. */
  lemma ListedIffInListing(name: string, listing: seq<string>)
    requires name != ""
    requires forall k :: 0 <= k < |listing| ==> '\n' !in listing[k]
    ensures ReleaseListed(name, _ => JoinLines(listing)) <==> name in listing
  {
    if |listing| == 0 {
      assert Lines("") == [""];
    } else {
      LinesOfJoinLines(listing);
    }
  }

  // ---------------------------------------------------------------- release_create

  /** What an install command line asks helm for. */
  datatype InstallRequest = InstallRequest(name: string, chart: string, version: Option<string>, valuesOnStdin: bool)

  /**
   * Reads back a `helm install --name <name> <chart>` command line with its
   * optional `--version <v>` pair and its optional `--values /dev/stdin`
   * pair, accepted only in that order.
   */
  function ParseInstall(argv: seq<string>): Option<InstallRequest>
  {
    if |argv| >= 5 && argv[..3] == ["helm", "install", "--name"] then
      var flags := argv[5..];
      if flags == [] then Some(InstallRequest(argv[3], argv[4], None, false))
      else if flags == ["--values", "/dev/stdin"] then Some(InstallRequest(argv[3], argv[4], None, true))
      else if |flags| == 2 && flags[0] == "--version" then
        Some(InstallRequest(argv[3], argv[4], Some(flags[1]), false))
      else if |flags| == 4 && flags[0] == "--version" && flags[2..] == ["--values", "/dev/stdin"] then
        Some(InstallRequest(argv[3], argv[4], Some(flags[1]), true))
      else None
    else None
  }

  function VersionFlags(version: Option<string>): seq<string>
  {
    if version.Some? then ["--version", version.value] else []
  }

  function ValuesFlags(values: Value): seq<string>
  {
    if values.PyNone? then [] else ["--values", "/dev/stdin"]
  }

  /**
   * The command `release_create` runs. A `values` of `None` means no
   * overrides; any other value, an empty dict included, is serialized to
   * stdin.
   */
  function InstallCommand(name: string, chart: string, version: Option<string>, values: Value,
                          serialize: Value -> string): (c: Command)
    ensures ParseInstall(c.argv) == Some(InstallRequest(name, chart, version, !values.PyNone?))
    ensures |c.argv| == 5 + (if version.Some? then 2 else 0) + (if values.PyNone? then 0 else 2)
    ensures c.env == HelmCmd([]).env
    ensures c.stdin.Some? <==> !values.PyNone?
    ensures c.stdin.Some? ==> c.stdin.value == serialize(values)
  {
    var flags := VersionFlags(version) + ValuesFlags(values);
    var cmd := HelmCmd(["install", "--name", name, chart] + flags);
    assert cmd.argv == ["helm", "install", "--name", name, chart] + flags;
    assert cmd.argv[..3] == ["helm", "install", "--name"];
    assert cmd.argv[5..] == flags;
    assert "--values" != "--version" by { assert "--values"[3] != "--version"[3]; }
    if values.PyNone? then cmd
    else cmd.(stdin := Some(serialize(values)))
  }

  /** The command line of an install request, flags in the order `release_create` adds them. */
  function InstallArgv(r: InstallRequest): seq<string>
  {
    ["helm", "install", "--name", r.name, r.chart] + VersionFlags(r.version)
      + (if r.valuesOnStdin then ["--values", "/dev/stdin"] else [])
  }

  /** A command line `ParseInstall` accepts is determined by what it reads back. */
  lemma ParseInstallExact(argv: seq<string>)
    requires ParseInstall(argv).Some?
    ensures argv == InstallArgv(ParseInstall(argv).value)
  {
    var r := ParseInstall(argv).value;
    assert argv == argv[..3] + [argv[3], argv[4]] + argv[5..];
    var flags := argv[5..];
    if |flags| == 4 {
      assert flags == [flags[0], flags[1]] + flags[2..];
    }
  }

  /** Two install command lines that read back as the same request are equal. */
  lemma ParseInstallInjective(a: seq<string>, b: seq<string>)
    requires ParseInstall(a).Some? && ParseInstall(a) == ParseInstall(b)
    ensures a == b
  {
    ParseInstallExact(a);
    ParseInstallExact(b);
  }

  /**
   * Any command that reads back as the install request, with the module's
   * environment and the serialized values (if any) on stdin, is the one
   * `release_create` runs.
   */
  lemma InstallCommandUnique(name: string, chart: string, version: Option<string>, values: Value,
                             serialize: Value -> string)
    ensures forall c: Command ::
              ParseInstall(c.argv) == Some(InstallRequest(name, chart, version, !values.PyNone?))
              && c.env == map["HELM_HOME" := "/srv/helm/home"]
              && c.stdin == (if values.PyNone? then None else Some(serialize(values)))
              ==> c == InstallCommand(name, chart, version, values, serialize)
  {
    var cmd := InstallCommand(name, chart, version, values, serialize);
    forall c: Command | ParseInstall(c.argv) == Some(InstallRequest(name, chart, version, !values.PyNone?))
                        && c.env == map["HELM_HOME" := "/srv/helm/home"]
                        && c.stdin == (if values.PyNone? then None else Some(serialize(values)))
      ensures c == cmd
    {
      ParseInstallInjective(c.argv, cmd.argv);
    }
  }

  /**
   * `release_create(...)`: true exactly when the command `helm install
   * --name <name> <chart>` with the requested flags, `HELM_HOME` set and the
   * serialized values on stdin exits with status 0.
   */
  function ReleaseCreate(name: string, chart: string, version: Option<string>, values: Value,
                         serialize: Value -> string, retcode: Command -> int): (ok: bool)
    ensures forall c: Command ::
              ParseInstall(c.argv) == Some(InstallRequest(name, chart, version, !values.PyNone?))
              && c.env == map["HELM_HOME" := "/srv/helm/home"]
              && c.stdin == (if values.PyNone? then None else Some(serialize(values)))
              ==> (ok <==> retcode(c) == 0)
  {
    InstallCommandUnique(name, chart, version, values, serialize);
    retcode(InstallCommand(name, chart, version, values, serialize)) == 0
  }
}

=== FILE: py_values.dfy ===
/**
 * Python data as the Salt states see it: the YAML-loaded release values, the
 * contents of a state's `changes` dict, and whatever the execution-module
 * functions hand back. Only the shapes a YAML document can produce are kept
 * (floats and non-string dict keys are left out).
 */
module PyValues {

  /** An optional value, for Python parameters that default to `None`. */
  datatype Option<+T> = None | Some(value: T)

  datatype Value =
    | PyNone
    | PyBool(b: bool)
    | PyInt(i: int)
    | PyStr(s: string)
    | PyList(items: seq<Value>)
    | PyDict(entries: map<string, Value>)

  /** Python truthiness, as used by `if err:` and `if result['failed']:`. */
  predicate Truthy(v: Value)
  {
    match v
    case PyNone => false
    case PyBool(b) => b
    case PyInt(i) => i != 0
    case PyStr(s) => |s| > 0
    case PyList(items) => |items| > 0
    case PyDict(entries) => |entries| > 0
  }

  /** `bool` is a subclass of `int` in Python: `True` compares as 1 and `False` as 0. */
  predicate IsNumber(v: Value)
  {
    v.PyBool? || v.PyInt?
  }

  function NumberOf(v: Value): int
    requires IsNumber(v)
  {
    if v.PyBool? then (if v.b then 1 else 0) else v.i
  }

  /**
   * Python's `==` on this data: numbers compare by value across `bool` and
   * `int`, lists element-wise in order, dicts by key set and per-key value,
   * without regard to insertion order.
   */
  predicate Eq(a: Value, b: Value)
    decreases a
  {
    if IsNumber(a) || IsNumber(b) then
      IsNumber(a) && IsNumber(b) && NumberOf(a) == NumberOf(b)
    else
      match a
      case PyNone => b.PyNone?
      case PyStr(s) => b.PyStr? && b.s == s
      case PyList(xs) =>
        && b.PyList?
        && |xs| == |b.items|
        && forall k :: 0 <= k < |xs| ==> Eq(xs[k], b.items[k])
      case PyDict(m) =>
        && b.PyDict?
        && m.Keys == b.entries.Keys
        && forall key :: key in m ==> Eq(m[key], b.entries[key])
  }

  /** Every value equals itself, so identical values are always `==`. */
  lemma {:induction false} EqReflexive(v: Value)
    ensures Eq(v, v)
    decreases v
  {
    match v
    case PyList(xs) =>
      forall k | 0 <= k < |xs|
        ensures Eq(xs[k], xs[k])
      {
        EqReflexive(xs[k]);
      }
    case PyDict(m) =>
      forall key | key in m
        ensures Eq(m[key], m[key])
      {
        EqReflexive(m[key]);
      }
    case _ =>
  }

  /** `==` does not depend on the order of its operands. */
  lemma {:induction false} EqSymmetric(a: Value, b: Value)
    requires Eq(a, b)
    ensures Eq(b, a)
    decreases a
  {
    if !IsNumber(a) && !IsNumber(b) {
      match a
      case PyList(xs) =>
        forall k | 0 <= k < |xs|
          ensures Eq(b.items[k], xs[k])
        {
          EqSymmetric(xs[k], b.items[k]);
        }
      case PyDict(m) =>
        forall key | key in b.entries
          ensures Eq(b.entries[key], m[key])
        {
          EqSymmetric(m[key], b.entries[key]);
        }
      case _ =>
    }
  }

  /**
   * Python equality is coarser than structural identity: a value set to
   * `true` in one YAML document and to `1` in another compares equal.
   */
  lemma BoolEqualsOne()
    ensures Eq(PyDict(map["replicas" := PyBool(true)]), PyDict(map["replicas" := PyInt(1)]))
    ensures PyDict(map["replicas" := PyBool(true)]) != PyDict(map["replicas" := PyInt(1)])
  {
    var a := PyDict(map["replicas" := PyBool(true)]);
    var b := PyDict(map["replicas" := PyInt(1)]);
    assert a.entries["replicas"] != b.entries["replicas"];
  }

  /** A list of strings, as `re.findall` returns it. */
  function StrList(names: seq<string>): Value
  {
    PyList(seq(|names|, k requires 0 <= k < |names| => PyStr(names[k])))
  }
}

=== FILE: release_states.dfy ===
/**
 * The `helm_release` states. Every `__salt__['helm.*']` call is answered from
 * an `Answers` record, and each run records the calls it made, in order, so
 * that which adapter operations a path consults can be stated.
 */
module ReleaseStates {
  import opened PyValues
  import opened SaltState

  /** `failure(name, message)`: the failed-state record carrying the adapter's error. */
  function Failure(name: string, message: Value): (ret: Ret)
    ensures ret.name == name
    ensures !ret.result && ret.changes == map[] && ret.comment == message
  {
    Ret(name, map[], false, message)
  }

  /** The connection arguments threaded through to every adapter call. */
  datatype TillerArgs = TillerArgs(tillerNamespace: string, tillerHost: Option<string>, kubeConfig: Option<string>)

  /** The defaults of `present` and `absent`. */
  const DefaultTiller: TillerArgs := TillerArgs("kube-system", None, None)

  /** One call into the `helm` execution module, with the arguments the state passed. */
  datatype Call =
    | ExistsCall(name: string, namespace: string, tiller: TillerArgs)
    | CreateCall(name: string, chart: string, namespace: string, version: Option<string>, values: Value, tiller: TillerArgs)
    | GetValuesCall(name: string, tiller: TillerArgs)
    | UpgradeCall(name: string, chart: string, namespace: string, version: Option<string>, values: Value, tiller: TillerArgs)
    | DeleteCall(name: string, tiller: TillerArgs)

  datatype Op = Probe | Create | GetValues | Upgrade | Delete

  function OpOf(c: Call): Op
  {
    match c
    case ExistsCall(_, _, _) => Probe
    case CreateCall(_, _, _, _, _, _) => Create
    case GetValuesCall(_, _) => GetValues
    case UpgradeCall(_, _, _, _, _, _) => Upgrade
    case DeleteCall(_, _) => Delete
  }

  /** The operations of a call trace, in order. */
  function Ops(calls: seq<Call>): seq<Op>
  {
    seq(|calls|, k requires 0 <= k < |calls| => OpOf(calls[k]))
  }

  /**
   * What the execution module answers: whether the release exists, the
   * return of `release_create`, `release_upgrade` and `release_delete`
   * (truthy means an error), and what `get_values` returns before and after
   * the upgrade.
   */
  datatype Answers = Answers(
    releaseExists: bool,
    createError: Value,
    upgradeError: Value,
    deleteError: Value,
    valuesBefore: Value,
    valuesAfter: Value)

  /** A state's return record together with the adapter calls it made. */
  datatype Run = Run(ret: Ret, calls: seq<Call>)

  /** Every call is about release `name` and carries the connection arguments unchanged. */
  predicate ThreadsThrough(calls: seq<Call>, name: string, tiller: TillerArgs)
  {
    forall k :: 0 <= k < |calls| ==> calls[k].name == name && calls[k].tiller == tiller
  }

  /** A failed state never reports changes, and a state with changes succeeded. */
  predicate ChangesOnlyOnSuccess(ret: Ret)
  {
    !ret.result ==> ret.changes == map[]
  }

  function CreatedRet(name: string): Ret
  {
    Ret(name, map[name := PyStr("CREATED")], true, PyStr("Release \"" + name + "\" was created"))
  }

  function DeletedRet(name: string): Ret
  {
    Ret(name, map[name := PyStr("DELETED")], true, PyStr("Release \"" + name + "\" was deleted"))
  }

  /**
   * `present(name, chart_name, namespace, version, values, tiller...)`.
   * `diff(old, new)` stands for the unified diff of the YAML renderings of
   * the two value sets.
   */
  function Present(name: string, chart: string, namespace: string, version: Option<string>, values: Value,
                   tiller: TillerArgs, answers: Answers, diff: (Value, Value) -> string): (run: Run)
    ensures run.ret.name == name
    ensures |run.calls| >= 2 && run.calls[0] == ExistsCall(name, namespace, tiller)
    ensures ThreadsThrough(run.calls, name, tiller)
    ensures forall k :: 0 <= k < |run.calls| && (run.calls[k].CreateCall? || run.calls[k].UpgradeCall?) ==>
              && run.calls[k].chart == chart && run.calls[k].namespace == namespace
              && run.calls[k].version == version && run.calls[k].values == values
    ensures Create in Ops(run.calls) <==> !answers.releaseExists
    ensures Upgrade in Ops(run.calls) <==> answers.releaseExists
    ensures Delete !in Ops(run.calls)
    ensures ChangesOnlyOnSuccess(run.ret)
    // the release is missing: it is created
    ensures !answers.releaseExists ==> GetValues !in Ops(run.calls)
    ensures !answers.releaseExists && Truthy(answers.createError) ==> run.ret == Failure(name, answers.createError)
    ensures !answers.releaseExists && !Truthy(answers.createError) ==>
              run.ret.result && run.ret.changes == map[name := PyStr("CREATED")]
    // the release exists: it is upgraded, between two reads of its values
    ensures answers.releaseExists ==> |run.calls| >= 3 && Ops(run.calls)[..3] == [Probe, GetValues, Upgrade]
    ensures answers.releaseExists && Truthy(answers.upgradeError) ==> run.ret == Failure(name, answers.upgradeError)
    ensures answers.releaseExists && !Truthy(answers.upgradeError) ==>
              run.ret.result && Ops(run.calls) == [Probe, GetValues, Upgrade, GetValues]
    ensures answers.releaseExists && !Truthy(answers.upgradeError) && Eq(answers.valuesAfter, answers.valuesBefore) ==>
              run.ret.changes == map[]
    ensures answers.releaseExists && !Truthy(answers.upgradeError) && !Eq(answers.valuesAfter, answers.valuesBefore) ==>
              run.ret.changes.Keys == {"values"}
              && run.ret.changes["values"] == PyStr(diff(answers.valuesBefore, answers.valuesAfter))
  {
    var probe := ExistsCall(name, namespace, tiller);
    if !answers.releaseExists then
      var calls := [probe, CreateCall(name, chart, namespace, version, values, tiller)];
      assert Ops(calls) == [Probe, Create];
      if Truthy(answers.createError) then Run(Failure(name, answers.createError), calls)
      else Run(CreatedRet(name), calls)
    else
      var calls := [probe, GetValuesCall(name, tiller), UpgradeCall(name, chart, namespace, version, values, tiller)];
      assert Ops(calls) == [Probe, GetValues, Upgrade];
      if Truthy(answers.upgradeError) then Run(Failure(name, answers.upgradeError), calls)
      else
        var calls' := calls + [GetValuesCall(name, tiller)];
        assert Ops(calls') == [Probe, GetValues, Upgrade, GetValues];
        if Eq(answers.valuesAfter, answers.valuesBefore) then
          Run(Ret(name, map[], true, PyStr("Release \"" + name + "\" already exists")), calls')
        else
          Run(Ret(name, map["values" := PyStr(diff(answers.valuesBefore, answers.valuesAfter))], true,
                  PyStr("Release \"" + name + "\" was updated")), calls')
  }

  /**
   * Re-applying a release whose values the upgrade leaves as they were
   * reports success and no changes: `present` is idempotent on a release
   * already in the declared state.
   */
  lemma PresentStable(name: string, chart: string, namespace: string, version: Option<string>, values: Value,
                      tiller: TillerArgs, answers: Answers, diff: (Value, Value) -> string)
    requires answers.releaseExists && !Truthy(answers.upgradeError)
    requires answers.valuesAfter == answers.valuesBefore
    ensures Present(name, chart, namespace, version, values, tiller, answers, diff).ret
            == Ret(name, map[], true, PyStr("Release \"" + name + "\" already exists"))
  {
    EqReflexive(answers.valuesBefore);
  }

  /**
   * Only a change Python's `==` can see is reported: values that merely turn
   * `true` into `1` leave the release unchanged.
   */
  lemma PresentIgnoresBoolIntChange(name: string, chart: string, namespace: string, tiller: TillerArgs,
                                    diff: (Value, Value) -> string)
    ensures var answers := Answers(true, PyNone, PyNone, PyNone,
                                   PyDict(map["replicas" := PyBool(true)]), PyDict(map["replicas" := PyInt(1)]));
            Present(name, chart, namespace, None, PyNone, tiller, answers, diff).ret.changes == map[]
  {
    BoolEqualsOne();
    EqSymmetric(PyDict(map["replicas" := PyBool(true)]), PyDict(map["replicas" := PyInt(1)]));
  }

  /**
   * Called with only the required arguments, `present` and `absent` ask the
   * module about Tiller in `kube-system`, with no host and no kubeconfig, and
   * `present` installs or upgrades without a version pin or value overrides.
   */
  lemma DefaultsReachAdapter(name: string, chart: string, namespace: string, answers: Answers,
                             diff: (Value, Value) -> string)
    ensures var run := Present(name, chart, namespace, None, PyNone, DefaultTiller, answers, diff);
            forall k :: 0 <= k < |run.calls| ==> run.calls[k].tiller == TillerArgs("kube-system", None, None)
    ensures var run := Present(name, chart, namespace, None, PyNone, DefaultTiller, answers, diff);
            forall k :: 0 <= k < |run.calls| && (run.calls[k].CreateCall? || run.calls[k].UpgradeCall?) ==>
              run.calls[k].version.None? && run.calls[k].values == PyNone
    ensures var run := Absent(name, namespace, DefaultTiller, answers);
            forall k :: 0 <= k < |run.calls| ==> run.calls[k].tiller == TillerArgs("kube-system", None, None)
  {
  }

  /** `absent(name, namespace, tiller...)`. */
  function Absent(name: string, namespace: string, tiller: TillerArgs, answers: Answers): (run: Run)
    ensures run.ret.name == name
    ensures |run.calls| >= 1 && run.calls[0] == ExistsCall(name, namespace, tiller)
    ensures ThreadsThrough(run.calls, name, tiller)
    ensures Delete in Ops(run.calls) <==> answers.releaseExists
    ensures Create !in Ops(run.calls) && Upgrade !in Ops(run.calls) && GetValues !in Ops(run.calls)
    ensures ChangesOnlyOnSuccess(run.ret)
    ensures !answers.releaseExists ==> run.ret.result && run.ret.changes == map[]
    ensures answers.releaseExists && Truthy(answers.deleteError) ==> run.ret == Failure(name, answers.deleteError)
    ensures answers.releaseExists && !Truthy(answers.deleteError) ==>
              run.ret.result && run.ret.changes == map[name := PyStr("DELETED")]
  {
    var probe := ExistsCall(name, namespace, tiller);
    if !answers.releaseExists then
      assert Ops([probe]) == [Probe];
      Run(Ret(name, map[], true, PyStr("Release \"" + name + "\" doesn't exist")), [probe])
    else
      var calls := [probe, DeleteCall(name, tiller)];
      assert Ops(calls) == [Probe, Delete];
      if Truthy(answers.deleteError) then Run(Failure(name, answers.deleteError), calls)
      else Run(DeletedRet(name), calls)
  }

  /**
   * Both release states succeed exactly when the one write they issued did
   * not return an error, and a state that issued no write always succeeds.
   */
  lemma ResultIffWriteSucceeded(name: string, chart: string, namespace: string, version: Option<string>,
                                values: Value, tiller: TillerArgs, answers: Answers, diff: (Value, Value) -> string)
    ensures Present(name, chart, namespace, version, values, tiller, answers, diff).ret.result
            <==> !Truthy(if answers.releaseExists then answers.upgradeError else answers.createError)
    ensures Absent(name, namespace, tiller, answers).ret.result
            <==> !(answers.releaseExists && Truthy(answers.deleteError))
  {
  }
}

=== FILE: repo_scan.dfy ===
/**
 * The two `re.findall` calls of the `updated` state, each with a pattern of
 * the shape `<phrase> "([^"]+)"`: a fixed phrase, an opening double quote, a
 * capture of one or more characters other than a double quote, and a closing
 * double quote. The capture group is greedy and a negated class, so at a
 * given position the pattern matches exactly when the phrase and quote are
 * there, at least one non-quote character follows, and the run of non-quote
 * characters ends in a quote rather than at the end of the text.
 */
module RepoScan {
  import opened PyValues

  const SuccessPhrase: string := "Successfully got an update from the "
  const FailurePhrase: string := "Unable to get an update from the "

  /** The literal part of a pattern: the phrase and the opening quote. */
  function Lead(phrase: string): string
  {
    phrase + "\""
  }

  /** Length of the longest prefix of `s` without a double quote. */
  function QuoteFreeRun(s: string): (n: nat)
    ensures n <= |s|
    ensures forall k :: 0 <= k < n ==> s[k] != '"'
    ensures n < |s| ==> s[n] == '"'
  {
    if |s| == 0 || s[0] == '"' then 0 else 1 + QuoteFreeRun(s[1..])
  }

  /** A match: the captured name and the text after the closing quote. */
  datatype Hit = Hit(name: string, rest: string)

  /** The pattern anchored at the start of `s`. */
  function MatchAt(lead: string, s: string): (h: Option<Hit>)
    ensures h.Some? ==> |h.value.name| > 0 && '"' !in h.value.name
    ensures h.Some? ==> s == lead + h.value.name + "\"" + h.value.rest
  {
    if lead <= s then
      var after := s[|lead|..];
      var k := QuoteFreeRun(after);
      if 0 < k < |after| then
        assert s == lead + after;
        assert after == after[..k] + "\"" + after[k + 1..];
        Some(Hit(after[..k], after[k + 1..]))
      else None
    else None
  }

  /**
   * `re.findall`: the captures of all non-overlapping matches, scanning left
   * to right and resuming after each match's closing quote.
   */
  function FindAll(lead: string, s: string): (names: seq<string>)
    ensures forall k :: 0 <= k < |names| ==> |names[k]| > 0 && '"' !in names[k]
    decreases |s|
  {
    if |s| == 0 then []
    else match MatchAt(lead, s)
      case Some(h) => [h.name] + FindAll(lead, h.rest)
      case None => FindAll(lead, s[1..])
  }

  /**
   * The text put back together from the stretches between matches and the
   * captured names: `gaps[0] lead names[0] " gaps[1] ... lead names[n-1] " gaps[n]`.
   */
  function Weave(lead: string, gaps: seq<string>, names: seq<string>): string
    requires |gaps| == |names| + 1
    decreases |names|
  {
    if |names| == 0 then gaps[0]
    else gaps[0] + lead + names[0] + "\"" + Weave(lead, gaps[1..], names[1..])
  }

  /** A match at the start of the text opens the weave with an empty gap. */
  lemma WeaveMatch(lead: string, name: string, gaps: seq<string>, names: seq<string>)
    requires |gaps| == |names| + 1
    ensures Weave(lead, [""] + gaps, [name] + names) == lead + name + "\"" + Weave(lead, gaps, names)
  {
    var gaps' := [""] + gaps;
    var names' := [name] + names;
    assert gaps'[0] == "" && gaps'[1..] == gaps;
    assert names'[0] == name && names'[1..] == names;
    assert "" + lead == lead;
  }

  /** Text in front of the first match joins the first gap. */
  lemma WeavePrepend(lead: string, c: char, gaps: seq<string>, names: seq<string>)
    requires |gaps| == |names| + 1
    ensures Weave(lead, [[c] + gaps[0]] + gaps[1..], names) == [c] + Weave(lead, gaps, names)
  {
    var gaps' := [[c] + gaps[0]] + gaps[1..];
    assert gaps'[1..] == gaps[1..];
  }

  /**
   * The stretches of text `re.findall` skips: woven together with the lead,
   * the names it returns and their closing quotes, they give back the text,
   * so every name sits right behind the lead, in text order, without overlap.
   */
  function GapsOf(lead: string, s: string): (gaps: seq<string>)
    ensures |gaps| == |FindAll(lead, s)| + 1
    ensures Weave(lead, gaps, FindAll(lead, s)) == s
    decreases |s|
  {
    if |s| == 0 then [""]
    else match MatchAt(lead, s)
      case Some(h) =>
        var g := GapsOf(lead, h.rest);
        WeaveMatch(lead, h.name, g, FindAll(lead, h.rest));
        assert s == lead + h.name + "\"" + h.rest;
        [""] + g
      case None =>
        var g := GapsOf(lead, s[1..]);
        WeavePrepend(lead, s[0], g, FindAll(lead, s[1..]));
        assert s == [s[0]] + s[1..];
        [[s[0]] + g[0]] + g[1..]
  }

  /**
   * The scan misses no match: if the leftmost position where the pattern
   * matches is `p`, the first name returned is that match's capture and the
   * scan carries on behind its closing quote.
   */
  lemma {:induction false} FirstMatchFound(lead: string, s: string, p: nat)
    requires p < |s|
    requires forall q :: 0 <= q < p ==> MatchAt(lead, s[q..]).None?
    requires MatchAt(lead, s[p..]).Some?
    ensures FindAll(lead, s) == [MatchAt(lead, s[p..]).value.name] + FindAll(lead, MatchAt(lead, s[p..]).value.rest)
    decreases p
  {
    assert s[0..] == s;
    if p > 0 {
      assert MatchAt(lead, s[0..]).None?;
      forall q | 0 <= q < p - 1
        ensures MatchAt(lead, s[1..][q..]).None?
      {
        assert s[1..][q..] == s[q + 1..];
      }
      assert s[1..][p - 1..] == s[p..];
      FirstMatchFound(lead, s[1..], p - 1);
    }
  }

  /** The scan returns no name exactly when the pattern matches at no position. */
  lemma {:induction false} NoNameIffNoMatch(lead: string, s: string)
    ensures FindAll(lead, s) == [] <==> forall p :: 0 <= p < |s| ==> MatchAt(lead, s[p..]).None?
    decreases |s|
  {
    if |s| > 0 {
      assert s[0..] == s;
      if MatchAt(lead, s).None? {
        NoNameIffNoMatch(lead, s[1..]);
        forall p | 0 < p < |s|
          ensures s[p..] == s[1..][p - 1..]
        {
        }
        assert (forall p :: 0 <= p < |s| ==> MatchAt(lead, s[p..]).None?)
               <==> (forall p :: 0 <= p < |s[1..]| ==> MatchAt(lead, s[1..][p..]).None?);
      }
    }
  }

  /** Scanning restarts right after a match: `lead name "` contributes `name`. */
  lemma ScanHit(phrase: string, name: string, rest: string)
    requires '"' !in phrase
    requires |name| > 0 && '"' !in name
    ensures FindAll(Lead(phrase), Lead(phrase) + name + "\"" + rest) == [name] + FindAll(Lead(phrase), rest)
  {
    var lead := Lead(phrase);
    var s := lead + name + "\"" + rest;
    assert lead <= s;
    var after := s[|lead|..];
    assert after == name + "\"" + rest;
    var k := QuoteFreeRun(after);
    assert after[|name|] == '"';
    assert k == |name|;
    assert after[..k] == name;
    assert after[k + 1..] == rest;
  }

  /** Text in which the pattern's first character never occurs contributes nothing. */
  lemma {:induction false} SkipForeign(lead: string, t: string, rest: string)
    requires |lead| > 0 && lead[0] !in t
    ensures FindAll(lead, t + rest) == FindAll(lead, rest)
    decreases |t|
  {
    if |t| > 0 {
      var s := t + rest;
      assert s[0] == t[0];
      assert MatchAt(lead, s).None?;
      assert s[1..] == t[1..] + rest;
      assert lead[0] !in t[1..] by {
        forall c | c in t[1..] ensures c in t { }
      }
      SkipForeign(lead, t[1..], rest);
    } else {
      assert t + rest == rest;
    }
  }

  /** `t` ends with `p`. */
  predicate EndsWith(t: string, p: string)
  {
    |p| <= |t| && t[|t| - |p|..] == p
  }

  /**
   * A quote-free name directly followed by a quote holds no match of another
   * pattern, unless the name ends with that pattern's phrase.
   */
  lemma {:induction false} SkipQuoted(phrase: string, name: string, rest: string)
    requires '"' !in phrase
    requires '"' !in name && !EndsWith(name, phrase)
    requires |rest| > 0 && rest[0] == '"'
    ensures FindAll(Lead(phrase), name + rest) == FindAll(Lead(phrase), rest)
    decreases |name|
  {
    if |name| > 0 {
      var lead := Lead(phrase);
      var s := name + rest;
      assert lead[|phrase|] == '"';
      if |phrase| < |name| {
        assert s[|phrase|] == name[|phrase|] && name[|phrase|] in name;
      } else if |phrase| > |name| {
        assert s[|name|] == '"' && lead[|name|] == phrase[|name|] && phrase[|name|] in phrase;
      } else {
        assert s[..|phrase|] == name && name[|name| - |phrase|..] == name;
      }
      assert !(lead <= s);
      assert MatchAt(lead, s).None?;
      assert s[1..] == name[1..] + rest;
      assert '"' !in name[1..] by {
        forall c | c in name[1..] ensures c in name { }
      }
      SkipQuoted(phrase, name[1..], rest);
    } else {
      assert name + rest == rest;
    }
  }

  /** `s` holds at most one double quote. */
  predicate AtMostOneQuote(s: string)
  {
    forall i, j :: 0 <= i < j < |s| && s[i] == '"' ==> s[j] != '"'
  }

  /**
   * A match needs an opening and a closing quote, so text with a single
   * quote, such as a phrase whose name runs to the end of the output,
   * yields no name.
   */
  lemma {:induction false} UnclosedQuoteNoMatch(phrase: string, s: string)
    requires '"' !in phrase
    requires AtMostOneQuote(s)
    ensures FindAll(Lead(phrase), s) == []
    decreases |s|
  {
    if |s| > 0 {
      NoMatchWithOneQuote(phrase, s);
      assert AtMostOneQuote(s[1..]) by {
        forall i, j | 0 <= i < j < |s[1..]| && s[1..][i] == '"'
          ensures s[1..][j] != '"'
        {
          assert s[i + 1] == '"';
        }
      }
      UnclosedQuoteNoMatch(phrase, s[1..]);
    }
  }

  lemma NoMatchWithOneQuote(phrase: string, s: string)
    requires '"' !in phrase
    requires AtMostOneQuote(s)
    ensures MatchAt(Lead(phrase), s).None?
  {
    var lead := Lead(phrase);
    if lead <= s {
      var after := s[|lead|..];
      assert s[|phrase|] == lead[|phrase|] == '"';
      forall m | 0 <= m < |after|
        ensures after[m] != '"'
      {
        assert after[m] == s[|lead| + m];
      }
      assert QuoteFreeRun(after) == |after|;
    }
  }
}

=== FILE: repo_states.dfy ===
/**
 * The `helm_repos` states. `managed` classifies the aggregate report of
 * `helm.manage_repos` (or the `CommandExecutionError` it raised); `updated`
 * classifies the text `helm.update_repos` printed. Both adapter calls are
 * inputs here.
 */
module RepoStates {
  import opened PyValues
  import opened SaltState
  import opened RepoScan

  // ---------------------------------------------------------------- managed

  /** What `helm.manage_repos` did: returned a report, or raised `CommandExecutionError`. */
  datatype ManageResponse = Report(report: map<string, Value>) | ManageFailed(message: string)

  /**
   * The report carries every key `managed` reads on its path: `failed`
   * always, `added` unless `failed` is truthy, and `removed` unless `failed`
   * or `added` is; a missing one raises `KeyError`.
   */
  predicate HasOutcomeLists(report: map<string, Value>)
  {
    && "failed" in report
    && (!Truthy(report["failed"]) ==>
          "added" in report && (!Truthy(report["added"]) ==> "removed" in report))
  }

  /** The report records at least one failure, addition or removal, read left to right. */
  predicate ReportsActivity(report: map<string, Value>)
    requires HasOutcomeLists(report)
  {
    Truthy(report["failed"]) || Truthy(report["added"]) || Truthy(report["removed"])
  }

  /** The repository names of `present`, in the dict's iteration order. */
  function PresentNames(present: seq<(string, string)>): (names: seq<string>)
    ensures |names| == |present|
    ensures forall k :: 0 <= k < |present| ==> names[k] == present[k].0
  {
    if |present| == 0 then [] else [present[0].0] + PresentNames(present[1..])
  }

  /**
   * `managed(name, present, ...)`. `present` is the dict of desired
   * repositories in iteration order; it only reaches the comment here.
   */
  function Managed(name: string, present: seq<(string, string)>, response: ManageResponse): (ret: Ret)
    requires response.Report? ==> HasOutcomeLists(response.report)
    ensures ret.name == name
    ensures ret.result <==> response.Report? && !Truthy(response.report["failed"])
    ensures response.Report? ==> (ret.changes == response.report <==> ReportsActivity(response.report))
    ensures ret.changes == map[] <==> !(response.Report? && ReportsActivity(response.report))
    ensures response.Report? && !ReportsActivity(response.report) ==>
              ret.comment == PyStr("Repositories were in the desired state: " + ListRepr(PresentNames(present)))
    ensures response.ManageFailed? ==>
              ret.comment == PyStr("Failed to add some repositories: " + response.message)
  {
    match response
    case ManageFailed(message) =>
      Ret(name, map[], false, PyStr("Failed to add some repositories: " + message))
    case Report(report) =>
      assert "failed" in report;
      if Truthy(report["failed"]) then
        Ret(name, report, false, PyStr("Failed to add or remove some repositories"))
      else if Truthy(report["added"]) || Truthy(report["removed"]) then
        Ret(name, report, true, PyStr("Repositories were added or removed"))
      else
        Ret(name, map[], true, PyStr("Repositories were in the desired state: " + ListRepr(PresentNames(present))))
  }

  /**
   * Failures take priority: a report with failures is a failed state even
   * when repositories were also added or removed, and the whole report is
   * still shown as the changes.
   */
  lemma ManagedFailureFirst(name: string, present: seq<(string, string)>, report: map<string, Value>)
    requires "failed" in report && Truthy(report["failed"])
    ensures !Managed(name, present, Report(report)).result
    ensures Managed(name, present, Report(report)).changes == report
    ensures Managed(name, present, Report(report)).comment == PyStr("Failed to add or remove some repositories")
  {
  }

  // ---------------------------------------------------------------- updated

  /** What `helm.update_repos` did: printed its output, or raised `CommandExecutionError`. */
  datatype UpdateResponse = Refreshed(output: string) | RefreshFailed(message: string)

  /** `updated(name, ...)`. */
  function Updated(name: string, response: UpdateResponse): (ret: Ret)
    ensures ret.name == name
    ensures response.RefreshFailed? ==>
              !ret.result && ret.changes == map[]
              && ret.comment == PyStr("Failed to update repos: " + response.message)
    ensures response.Refreshed? ==>
              var succeeded := FindAll(Lead(SuccessPhrase), response.output);
              var failed := FindAll(Lead(FailurePhrase), response.output);
              && (ret.result <==> failed == [])
              && (failed != [] ==> ret.changes == map["succeeded" := StrList(succeeded), "failed" := StrList(failed)])
              && (failed == [] ==> ret.changes == map[])
              && (failed == [] ==> ret.comment == PyStr("Successfully synced repositories: " + ListRepr(succeeded)))
  {
    match response
    case RefreshFailed(message) =>
      Ret(name, map[], false, PyStr("Failed to update repos: " + message))
    case Refreshed(output) =>
      var succeeded := FindAll(Lead(SuccessPhrase), output);
      var failed := FindAll(Lead(FailurePhrase), output);
      if |failed| > 0 then
        Ret(name, map["succeeded" := StrList(succeeded), "failed" := StrList(failed)], false,
            PyStr("Failed to sync against some repositories"))
      else
        Ret(name, map[], true, PyStr("Successfully synced repositories: " + ListRepr(succeeded)))
  }

  /** The per-repository outcome of a `helm repo update` run. */
  datatype RepoUpdate = Got(name: string) | Unable(name: string)

  /**
   * A simplified rendering of the line `helm repo update` prints for one
   * repository: the failure detail helm adds after the name, and the header
   * and trailer lines of a run, are not rendered.
   */
  function ReportLine(u: RepoUpdate): string
  {
    "..." + Lead(if u.Got? then SuccessPhrase else FailurePhrase) + u.name + "\"" + LineTail
  }

  /** A simplified `helm repo update` output: one rendered line per repository. */
  function Render(updates: seq<RepoUpdate>): string
  {
    if |updates| == 0 then "" else ReportLine(updates[0]) + Render(updates[1..])
  }

  function GotNames(updates: seq<RepoUpdate>): seq<string>
  {
    if |updates| == 0 then []
    else (if updates[0].Got? then [updates[0].name] else []) + GotNames(updates[1..])
  }

  function UnableNames(updates: seq<RepoUpdate>): seq<string>
  {
    if |updates| == 0 then []
    else (if updates[0].Unable? then [updates[0].name] else []) + UnableNames(updates[1..])
  }

  /**
   * A repository name the output can carry unambiguously: non-empty, without
   * a double quote, and not ending with either phrase.
   */
  predicate PlainName(n: string)
  {
    |n| > 0 && '"' !in n && !EndsWith(n, SuccessPhrase) && !EndsWith(n, FailurePhrase)
  }

  const LineTail: string := " chart repository\n"

  /** A report line for `phrase` is read back by the pattern for `phrase` as its name. */
  lemma ScanOwnLine(phrase: string, n: string, rest: string)
    requires |phrase| > 0 && '"' !in phrase && phrase[0] !in "..." && phrase[0] !in LineTail
    requires |n| > 0 && '"' !in n
    ensures FindAll(Lead(phrase), "..." + Lead(phrase) + n + "\"" + LineTail + rest)
            == [n] + FindAll(Lead(phrase), rest)
  {
    var lead := Lead(phrase);
    assert "..." + lead + n + "\"" + LineTail + rest == "..." + (lead + n + "\"" + (LineTail + rest));
    SkipForeign(lead, "...", lead + n + "\"" + (LineTail + rest));
    ScanHit(phrase, n, LineTail + rest);
    SkipForeign(lead, LineTail, rest);
  }

  /** A report line for `other` holds no match of the pattern for `phrase`. */
  lemma ScanOtherLine(phrase: string, other: string, n: string, rest: string)
    requires |phrase| > 0 && '"' !in phrase
    requires phrase[0] !in "..." + Lead(other) && phrase[0] !in "\"" + LineTail
    requires '"' !in n && !EndsWith(n, phrase)
    ensures FindAll(Lead(phrase), "..." + Lead(other) + n + "\"" + LineTail + rest)
            == FindAll(Lead(phrase), rest)
  {
    var lead := Lead(phrase);
    assert "..." + Lead(other) + n + "\"" + LineTail + rest == ("..." + Lead(other)) + (n + ("\"" + LineTail + rest));
    SkipForeign(lead, "..." + Lead(other), n + ("\"" + LineTail + rest));
    SkipQuoted(phrase, n, "\"" + LineTail + rest);
    SkipForeign(lead, "\"" + LineTail, rest);
  }

  /** The letters that tell the two phrases apart occur nowhere else on a line. */
  lemma PhraseInitials()
    ensures SuccessPhrase[0] == 'S' && FailurePhrase[0] == 'U'
    ensures '"' !in SuccessPhrase && '"' !in FailurePhrase
    ensures 'S' !in "..." && 'U' !in "..." && 'S' !in "\"" + LineTail && 'U' !in "\"" + LineTail
    ensures 'S' !in "..." + Lead(FailurePhrase) && 'U' !in "..." + Lead(SuccessPhrase)
  {
    QuoteFreePhrases();
    LetterFreeTail();
    assert 'S' !in FailurePhrase;
    assert 'U' !in SuccessPhrase;
  }

  lemma QuoteFreePhrases()
    ensures '"' !in SuccessPhrase && '"' !in FailurePhrase
  {
  }

  lemma LetterFreeTail()
    ensures 'S' !in LineTail && 'U' !in LineTail
  {
  }

  /** The scanners read one line back: the matching one finds its name, the other nothing. */
  lemma ScanLine(u: RepoUpdate, rest: string)
    requires PlainName(u.name)
    ensures FindAll(Lead(SuccessPhrase), ReportLine(u) + rest)
            == (if u.Got? then [u.name] else []) + FindAll(Lead(SuccessPhrase), rest)
    ensures FindAll(Lead(FailurePhrase), ReportLine(u) + rest)
            == (if u.Unable? then [u.name] else []) + FindAll(Lead(FailurePhrase), rest)
  {
    PhraseInitials();
    if u.Got? {
      assert ReportLine(u) + rest == "..." + Lead(SuccessPhrase) + u.name + "\"" + LineTail + rest;
      ScanOwnLine(SuccessPhrase, u.name, rest);
      ScanOtherLine(FailurePhrase, SuccessPhrase, u.name, rest);
    } else {
      assert ReportLine(u) + rest == "..." + Lead(FailurePhrase) + u.name + "\"" + LineTail + rest;
      ScanOwnLine(FailurePhrase, u.name, rest);
      ScanOtherLine(SuccessPhrase, FailurePhrase, u.name, rest);
    }
  }

  /** Scanning a rendered run recovers, in order, which repositories succeeded and which failed. */
  lemma {:induction false} ScanRendered(updates: seq<RepoUpdate>)
    requires forall k :: 0 <= k < |updates| ==> PlainName(updates[k].name)
    ensures FindAll(Lead(SuccessPhrase), Render(updates)) == GotNames(updates)
    ensures FindAll(Lead(FailurePhrase), Render(updates)) == UnableNames(updates)
    decreases |updates|
  {
    if |updates| > 0 {
      ScanLine(updates[0], Render(updates[1..]));
      ScanRendered(updates[1..]);
    }
  }

  /**
   * `updated` on a rendered run fails exactly when some repository could not
   * be refreshed, and then reports both name lists in output order.
   */
  lemma UpdatedOnRenderedRun(name: string, updates: seq<RepoUpdate>)
    requires forall k :: 0 <= k < |updates| ==> PlainName(updates[k].name)
    ensures Updated(name, Refreshed(Render(updates))).result <==> forall k :: 0 <= k < |updates| ==> updates[k].Got?
    ensures (exists k :: 0 <= k < |updates| && updates[k].Unable?) ==>
              Updated(name, Refreshed(Render(updates))).changes
              == map["succeeded" := StrList(GotNames(updates)), "failed" := StrList(UnableNames(updates))]
  {
    ScanRendered(updates);
    AllGotIffNoUnable(updates);
  }

  lemma {:induction false} AllGotIffNoUnable(updates: seq<RepoUpdate>)
    ensures UnableNames(updates) == [] <==> forall k :: 0 <= k < |updates| ==> updates[k].Got?
    decreases |updates|
  {
    if |updates| > 0 {
      AllGotIffNoUnable(updates[1..]);
      assert forall k :: 1 <= k < |updates| ==> updates[k] == updates[1..][k - 1];
    }
  }
}

=== FILE: salt_state.dfy ===
/**
 * The return dictionary every Salt state function produces:
 * `{'name': ..., 'changes': {...}, 'result': ..., 'comment': ...}`.
 */
module SaltState {
  import opened PyValues

  /**
   * `comment` is a `Value` rather than a string because `failure` stores
   * whatever error object the execution module returned.
   */
  datatype Ret = Ret(name: string, changes: map<string, Value>, result: bool, comment: Value)

  /** Python 2 `repr` of a `str`, for names that need no escaping. */
  function StrRepr(s: string): string
  {
    "'" + s + "'"
  }

  /** Python 2 `"%s" % names` for a list of `str`: `['a', 'b']`. */
  function ListRepr(names: seq<string>): string
  {
    "[" + JoinRepr(names) + "]"
  }

  function JoinRepr(names: seq<string>): string
  {
    if |names| == 0 then ""
    else if |names| == 1 then StrRepr(names[0])
    else StrRepr(names[0]) + ", " + JoinRepr(names[1..])
  }
}
